=== FILE: README.md ===
# DealFlow pipeline board: a Dafny model of its action layer

DealFlow is a sales-pipeline board. A chat agent drives it through five tools:
`create_deal`, `move_deal`, `get_pipeline_summary`, `close_deal` and
`delete_deal`. The last two ask the operator to confirm before they change
anything. This project models those tools as pure functions over the deal
list, together with the analytics, the stage columns, the summary card and the
display logic of the chat widgets. It then proves the invariants the board
depends on.

Modules, one per part of the source:

- `Optional` and `Text`: optional tool arguments, JavaScript's `||` on
  strings, and ASCII `toLowerCase` for case-insensitive name matching.
- `Seqs`: `Array.prototype.filter` and its laws.
- `Types` (`src/lib/types.ts`): the six-value `Stage` enum and its string
  keys. Also the column order, the configuration labels, the `Deal` record,
  the uniqueness invariant and the seed pipeline.
- `Analytics` (`src/lib/hooks.ts`): totals, the active/won/lost filters, the
  win rate, and per-stage tallies.
- `Summary` (`src/components/PipelineSummary.tsx`): the headline figures
  and the stage breakdown.
- `Widgets` (`src/components/GenerativeUI.tsx`): the close-deal confirmation
  state machine and the create/move previews.
- `Board` (`src/components/PipelineBoard.tsx`): the tool handlers, the board
  columns, and the invariants over any sequence of actions.

Each action maps the current deals and the tool arguments to a `Step`. A
`Step` holds the next deal list, the reply given to the chat runtime and the
notifications raised. Toasts become `Toast(notice, severity)` events and the
confetti becomes a `Celebrate` event.

The store's functional updater (`setDeals(prev => ...)`) becomes "next =
f(current)". The handlers read the render-time snapshot `deals`, and the
analytics computed from it at line 43, in three places:
- the duplicate check of `create_deal`;
- the name list in `move_deal`'s not-found reply;
- every figure in `get_pipeline_summary`'s reply: the deal count, total
  value, active and won counts, and won value.

Actions run one at a time here, so the snapshot and the current state are the
same list.

A deal's `stage` is a string, because that is what can actually be stored
there. `close_deal` writes its `outcome` argument into the field without
checking it. `AllValid` states that every stage is one of the six keys.

Where the design description and the code disagree, the model follows the
code:

- `move_deal` accepts all six stages, `closed_won` and `closed_lost`
  included, even though its tool description points closing to `close_deal`.
- A confirmed `delete_deal` removes every deal whose name matches up to case,
  not just one. While names are unique this removes exactly one deal
  (`Board.DeleteRemovesAtMostOne`).
- A confirmed `close_deal` does not check `outcome`; see Findings.
  `Board.CloseDealFlow`, `Board.ApplyAsWritten` and `Board.RunAsWritten`
  follow the code. `Board.Apply` and `Board.Run` use the checked confirm.

## Model

| member | source | states |
|---|---|---|
| Optional.Or | src/components/PipelineBoard.tsx:112-113 | `x \|\| default`: the argument, unless it is missing or empty, in which case the default |
| Text.Lower | src/components/PipelineBoard.tsx:98-100 | lower-casing keeps the length and lower-cases every letter, character by character |
| Seqs.Filter | src/lib/hooks.ts:55-59 | a filter keeps only elements that pass, keeps every element that passes, and never grows |
| Seqs.FilterConcat | src/lib/hooks.ts:55-59 | filtering commutes with concatenation, so a filter preserves the order of what it keeps |
| Seqs.FilterKeepsAll | src/components/PipelineBoard.tsx:297-301 | a filter keeps the full length exactly when every element passes, and is then the identity |
| Types.FindStage | src/lib/types.ts:32-39 | a lookup in the stage list finds a stage with the given key, or reports that no listed stage has it |
| Types.ParseRoundTrip | src/components/PipelineBoard.tsx:150-152 | a string is accepted as stage `s` exactly when it is `s`'s key |
| Types.PipelineStagesComplete | src/lib/types.ts:32-39 | the column order holds all six stages exactly once, and the configuration record lists its keys in the same order |
| Types.LabelsDistinct | src/lib/types.ts:20-30 | no two stages share a configuration label |
| Types.ShortStringsAreNotKeys | src/lib/types.ts:1-7 | no string shorter than four characters is a stage key |
| Types.SampleNamesUnique | src/lib/types.ts:41-82 | no two seed deals share a name up to case |
| Types.SampleIdsUnique | src/lib/types.ts:43-73 | the seed ids are pairwise distinct |
| Types.SampleStagesActive | src/lib/types.ts:45-79 | every seed stage is a valid, active stage |
| Analytics.SumConcat | src/lib/hooks.ts:54 | the value total of a concatenation is the sum of the two totals |
| Analytics.WithStage | src/components/PipelineBoard.tsx:319-322 | the deals of one stage are exactly the deals stored under that key |
| Analytics.ActiveDeals | src/lib/hooks.ts:55-57 | the active deals are exactly those whose stage is neither `closed_won` nor `closed_lost` |
| Analytics.PartitionByOutcome | src/lib/hooks.ts:55-59 | each deal is exactly one of active, won or lost, so the three counts add up to the deal count and the three values add up to the total |
| Analytics.WinRate | src/lib/hooks.ts:66-69 | the win rate is 0 when nothing is closed; otherwise it is the whole number nearest `100*won/closed`, halves rounded up, and never above 100 |
| Analytics.WinRateExtremes | src/lib/hooks.ts:66-69 | the rate is 100 when every closed deal is won and 0 when every closed deal is lost |
| Analytics.PipelineAnalytics | src/lib/hooks.ts:52-71 | the active, won and lost lists are exactly the three stage filters, and the win rate is `WinRate` of their sizes; the figures total the deal values, their counts add up to the deal count, their values add up to the total, and the win rate is in 0..100 and 0 when nothing is closed |
| Analytics.ActiveAndWonWithinTotal | src/lib/hooks.ts:60-65 | won value plus active value is at most the total, and equal to it when no deal is lost |
| Analytics.WinRateWithoutClosedDeals | src/lib/hooks.ts:66-69 | a list with no closed deal has win rate 0 |
| Analytics.SampleAnalytics | src/lib/types.ts:41-82 | the seed is worth 325000, has four active deals, and has win rate 0 |
| Analytics.Tallies | src/components/PipelineBoard.tsx:361-364 | one tally per stage, in order, holding that stage's deals and their value |
| Analytics.TalliesCons | src/components/PipelineBoard.tsx:361-364 | over distinct stages, one deal adds to exactly one tally when its stage is among them, and to none otherwise |
| Analytics.TalliesCover | src/components/PipelineBoard.tsx:361-364 | tally counts add up to the deal count exactly when every stage is covered; then tally values add up to the total value |
| Summary.StageBreakdown | src/components/PipelineSummary.tsx:17-26 | one breakdown row per configured stage, in configuration order, with its label, count and value |
| Summary.BreakdownTotals | src/components/PipelineSummary.tsx:17-26 | breakdown counts add up to the deal count exactly when all stages are valid; then breakdown values add up to the total value |
| Summary.BreakdownWonRow | src/components/PipelineSummary.tsx:14-26 | the `closed_won` row carries the won count and the won value |
| Summary.BreakdownActiveRows | src/components/PipelineSummary.tsx:11-26 | with valid stages, the four active rows add up to the active count |
| Summary.PipelineHeadline | src/components/PipelineSummary.tsx:10-15 | the card shows the deal count, the total value, the number of active deals and the value of the won deals; the active count is at most the deal count and the won value at most the total |
| Summary.HeadlineAgreesWithAnalytics | src/components/PipelineSummary.tsx:10-15 | the card's total, active count and won value equal those of the analytics |
| Widgets.NewCloseWidget | src/components/GenerativeUI.tsx:198-206 | a new confirmation widget starts unanswered (the source's "none") |
| Widgets.Press | src/components/GenerativeUI.tsx:231-262 | pressing a button on an unanswered widget records the answer and fires that button's callback; an answered widget has no buttons and nothing fires |
| Widgets.AnsweredIsTerminal | src/components/GenerativeUI.tsx:231-262 | once answered, no sequence of presses changes the widget or fires a callback |
| Widgets.OneCallbackPerWidget | src/components/GenerativeUI.tsx:239-257 | exactly one callback fires per widget; the first press chooses it and the widget ends confirmed or cancelled to match |
| Widgets.ButtonsIgnoreExecuting | src/components/GenerativeUI.tsx:198-262 | whether buttons are shown, and what a press fires, do not depend on `isExecuting` |
| Widgets.TitleDecodes | src/components/GenerativeUI.tsx:221-225 | the title identifies the response state and, unless the action was cancelled, whether the outcome is a win |
| Widgets.PreviewEntry | src/components/GenerativeUI.tsx:62 | with no stage the preview uses `lead`'s entry. Otherwise it uses the stage's own entry exactly for a stage key. An inherited property name gives an inherited value, and any other string gives `undefined` |
| Widgets.DealPreview | src/components/GenerativeUI.tsx:62-129 | the loader appears exactly when name, company and value are all falsy (0 included). The render fails exactly when data is present and the stage is a non-empty string that is neither a stage key nor an inherited name. Otherwise the card's badge reads "created" exactly when complete, and the "saving to pipeline" line shows exactly while executing |
| Widgets.DealPreviewChecked | src/components/GenerativeUI.tsx:62-108 | the checked preview never fails; its card shows the stage `create_deal` stores, which is the given key or else `lead` |
| Widgets.CheckedPreviewAgrees | src/components/GenerativeUI.tsx:62-108 | wherever the preview as written shows a stage's own entry, or the loader, the checked preview shows the same |
| Widgets.DealPreviewThrowsOnPartialStage | src/components/GenerativeUI.tsx:62-108 | with a name present and the stage streamed in as far as "prop", the start of "proposal", the preview as written fails, while the checked one draws `lead` |
| Widgets.MovePreview | src/components/GenerativeUI.tsx:146-179 | the loader appears exactly when the deal name is empty, and the badge reads "moved" exactly when complete. The card shows a stage exactly for a stage key; any other string, inherited names included, renders blank through `?.` |
| Board.FindByName | src/components/PipelineBoard.tsx:156-158 | finds the first deal whose name matches up to case, and finds one exactly when some deal matches |
| Board.SetStage | src/components/PipelineBoard.tsx:155-164 | only the stage of the first match changes; length, order, other deals and other fields stay as they were, and with no match the list is unchanged |
| Types.DefaultStage | src/components/PipelineBoard.tsx:104-106 | a new deal gets the supplied stage when it is a stage key, and `lead` otherwise |
| Types.ConfigLookup | src/lib/types.ts:20-30 | indexing the configuration record gives a stage's own entry exactly for a stage key, an inherited value exactly for an `Object.prototype` property name, and `undefined` for everything else |
| Board.CreateDeal | src/components/PipelineBoard.tsx:96-120 | a name taken up to case is rejected with the existing deal's stage, and the pipeline and events stay unchanged; otherwise exactly one deal with the given fields is appended, earlier deals are unchanged, and a success toast is raised |
| Board.MoveDeal | src/components/PipelineBoard.tsx:148-171 | an invalid stage or an unknown name is rejected and leaves the pipeline identical (only an unknown name raises an error toast); otherwise only the first match's stage changes |
| Board.GetPipelineSummary | src/components/PipelineBoard.tsx:187-189 | reports the deal count, total value, number of active deals, number of won deals and won value; raises nothing and changes nothing |
| Board.SummaryIsReadOnly | src/components/PipelineBoard.tsx:187-189 | two summaries in a row give the same answer and leave the pipeline the same |
| Board.CloseConfirmAsWritten | src/components/PipelineBoard.tsx:218-241 | confirm stores the outcome (default `closed_won`) as the first match's stage, changes nothing without a match, and always responds approved. The outcome `closed_won` raises the Won success toast and the confetti; any other outcome raises the Lost info toast |
| Board.Decline | src/components/PipelineBoard.tsx:242-244 | cancel (of `close_deal` here, and of `delete_deal` at line 288) responds not approved, raises nothing and changes nothing |
| Board.CloseConfirm | src/components/PipelineBoard.tsx:218-241 | the checked confirm: same as the code for the two closing outcomes, declines any other outcome, and keeps every stage valid |
| Board.CloseDealFlow | src/components/PipelineBoard.tsx:213-246 | the close exchange as written: with no press it is still waiting; otherwise the first press alone chooses the unchecked confirm or the cancel, whatever the status, and the reply reaches the runtime exactly when the call is executing (`respond?.` at lines 240 and 243) |
| Board.Delivered | src/components/PipelineBoard.tsx:240-243 | a callback changes the deals and raises its notifications whatever the status, but its reply is delivered only while the call is executing, and is otherwise lost |
| Board.RemoveNamed | src/components/PipelineBoard.tsx:297-301 | every deal whose name matches up to case is removed, every other deal is kept, and the list is unchanged when nothing matches |
| Board.RemoveNamedCons | src/components/PipelineBoard.tsx:297-301 | the removal, one deal at a time: a matching head is dropped and any other head is kept in front of the rest, so the kept deals stay in their order, each once |
| Board.DeleteConfirm | src/components/PipelineBoard.tsx:296-304 | confirm leaves exactly the removal of the named deals (which keeps the rest in order), responds approved and raises a deletion toast |
| Board.ResolveDelete | src/components/PipelineBoard.tsx:280-307 | the delete buttons exist only while the status is executing; cancel responds not approved, raises nothing and keeps the pipeline, and confirm deletes |
| Board.Columns | src/components/PipelineBoard.tsx:319-364 | one column per stage in board order; each column holds exactly the deals whose stage is its key, in list order, and its value is their total |
| Board.ColumnsPartition | src/components/PipelineBoard.tsx:361-364 | column counts add up to the deal count exactly when all stages are valid; then column values add up to the analytics total |
| Board.SetStageKeepsValid | src/components/PipelineBoard.tsx:155-164 | setting a stage to a stage key keeps every stage valid |
| Board.SetStageKeepsNamesUnique | src/components/PipelineBoard.tsx:221-232 | a stage rewrite keeps names unique |
| Board.FilterKeepsNamesUnique | src/components/PipelineBoard.tsx:297-301 | filtering keeps names unique |
| Board.CreateKeepsNamesUnique | src/components/PipelineBoard.tsx:98-117 | `create_deal` keeps names unique up to case |
| Board.CreateKeepsValid | src/components/PipelineBoard.tsx:104-116 | `create_deal` files the new deal under a valid stage |
| Board.DeleteRemovesAtMostOne | src/components/PipelineBoard.tsx:297-301 | with unique names, a confirmed delete removes exactly one deal when the name matches and none otherwise |
| Board.ApplyKeepsInvariants | src/components/PipelineBoard.tsx:96-304 | with the checked `close_deal`, every action keeps names unique and stages valid |
| Board.RunKeepsInvariants | src/components/PipelineBoard.tsx:96-304 | with the checked `close_deal`, any sequence of actions keeps names unique and stages valid |
| Board.ApplyAsWrittenKeepsNamesUnique | src/components/PipelineBoard.tsx:96-304 | with `close_deal` as written, every action still keeps names unique |
| Board.RunAsWrittenKeepsNamesUnique | src/components/PipelineBoard.tsx:96-304 | with `close_deal` as written, any sequence of actions keeps names unique |
| Board.ApplyAsWrittenAgrees | src/components/PipelineBoard.tsx:218-241 | the code as written and the checked program take the same step on every action except a confirmed close whose outcome is not a closed stage |
| Board.FromSeed | src/components/PipelineBoard.tsx:40 | starting from the seed and using the checked `close_deal`, after any sequence of actions names stay unique and the columns account for every deal |
| Board.CloseAsWrittenLeavesColumns | src/components/PipelineBoard.tsx:229 | confirming with an outcome that is not a stage key stores it, and that deal then passes none of the column filters at lines 361-364 |
| Board.CloseAsWrittenSeedExample | src/components/PipelineBoard.tsx:229 | closing the seed's "Cloud Migration" with outcome "won" responds approved and stores a stage that is not a key, so the column filters count one deal short |
| Board.PreviewStageMatchesCreate | src/components/PipelineBoard.tsx:121-131 | the create preview as written shows the stage the handler stores when the stage argument is missing, empty or a key. For any other string the handler uses `lead`, while the preview fails, or draws an inherited value for an inherited name |
| Board.CheckedPreviewMatchesCreate | src/components/PipelineBoard.tsx:121-131 | the checked create preview always shows the stage the handler stores |
| Board.PreviewStageMatchesMove | src/components/PipelineBoard.tsx:172-178 | for a valid move, the move preview shows the stage the handler stores |

## Findings

| source | as written | input that shows it | evidently intended | confidence | as-written member | corrected member |
|---|---|---|---|---|---|---|
| src/components/PipelineBoard.tsx:229 | confirming `close_deal` stores the `outcome` argument as the deal's stage without checking it | `close_deal("Cloud Migration", "won")`, confirmed: the stage becomes `"won"`, the reply is approved and the toast says "closed as Lost". The next render of the board then reads `STAGE_CONFIG["won"].label` at line 66 (and again at line 75), and that throws a TypeError. (An inherited property name such as "constructor" reads `undefined` there without failing; the deal is then in no column.) | the outcome is `closed_won` or `closed_lost`, as the tool's parameter description says (line 209), so every stage stays one of the six | medium, not executed | Board.CloseConfirmAsWritten | Board.CloseConfirm |
| src/components/GenerativeUI.tsx:62 | the create preview looks up `STAGE_CONFIG[deal.stage]` for any truthy stage string, and line 108 reads `stage.color` of the result | the arguments stream in as name "Security Audit" with stage "prop", on its way to "proposal" (a wrong value such as "won" or "Qualified" does the same): the lookup gives `undefined` and the render throws a TypeError | the preview shows the stage the handler will store, which falls back to `lead` (lines 104-106) | medium, not executed | Widgets.DealPreview | Widgets.DealPreviewChecked |

The checked `Board.CloseConfirm` is what `Board.Apply` and `Board.Run` use,
and so what `Board.RunKeepsInvariants` covers. For the two closing outcomes it
equals the code. For any other outcome it declines, as a cancel does.
`Board.CloseAsWrittenLeavesColumns` and `Board.CloseAsWrittenSeedExample`
state what the column filters at lines 361-364 make of such a stage. The
name-uniqueness invariant holds for the code as written too
(`Board.RunAsWrittenKeepsNamesUnique`).

For the preview, `Widgets.DealPreviewThrowsOnPartialStage` shows the failing
input. `Board.PreviewStageMatchesCreate` and `Board.CheckedPreviewMatchesCreate`
relate the two previews to the handler.

## Left out

- The persisted store (`usePersistedState`: localStorage, JSON parsing, and
  sync across tabs): this is I/O. Only its updater contract, "next =
  f(current)", is modelled.
- Toast rendering, the auto-dismiss timer, random toast ids, the confetti and
  its 300 ms delay: these are presentation. They become `Toast`/`Celebrate`
  events.
- `useCopilotReadable` and `useCopilotChatSuggestions`: these only build
  context strings for the language model.
- The agent wrapper in `src/lib/agent.ts`, the API route, the page,
  `DealCard` and `ErrorBoundary`: these are SDK plumbing and rendering, and
  are not part of this model.
- Message wording and currency/date formatting (`toLocaleString`,
  `toFixed`): replies are datatypes carrying the same data.
- Colour and emoji of each stage: presentation.
- The board's own render (header figures, the context string at lines
  51-71, the cards): only the column filters are modelled. The failure at
  line 66, which a stage that is neither a key nor an inherited property
  name causes (see Findings), is stated in words, not as a member. An
  inherited name such as "constructor" reads `undefined` there without
  failing, and the deal is then simply in no column.
- Full Unicode case folding: `Text.Lower` lower-cases ASCII letters only.
- `Date.now()` and `new Date()`: the new deal's id and timestamp, and the
  seed's timestamps, are parameters. One `loadedAt` stands for the seed's
  four `new Date()` calls, which may fall in different milliseconds. The model does not show that two deals
  created in the same millisecond get distinct ids, and the source does not
  guarantee it either.
- `Types.Deal`: `value` is a `nat`. Negative or fractional values that the
  runtime could pass are not modelled.
- Analytics.WinRate: uses exact rounding, `(200*won + closed) / (2*closed)`.
  The source computes `Math.round(won / closed * 100)` in double precision,
  which can differ at exact halves. For 23 won of 40 closed, the product
  evaluates to 57.49999999999999, so the source shows 57 where exact rounding
  gives 58.
- React batching: `move_deal` reads a `found` flag set inside the updater.
  Here the updater runs synchronously, in the order the actions arrive.
- The render-status views of `get_pipeline_summary` (spinner, then the card)
  and the "deleted" line of the delete widget: display only.
- How the chat runtime moves a call through `inProgress`, `executing` and
  `complete`, and how it holds a confirmation call open, is external. The
  status is a parameter.
  The model takes the runtime to hand a confirmation widget its `respond`
  callback only while the call is executing (`Board.Delivered`).
- Board.Apply: its `Close` and `Delete` actions stand for a press made while
  the call is executing, so their replies are always delivered.
  `Board.CloseDealFlow` covers a close widget pressed in the other statuses.

=== FILE: analytics.dfy ===
/** The pipeline analytics: pure folds and filters over the deal list. */
module Analytics {
  import opened Optional
  import opened Types
  import opened Seqs

  /** `deals.reduce((sum, d) => sum + d.value, 0)`. */
  function Sum(ds: seq<Deal>): nat {
    if |ds| == 0 then 0 else ds[0].value + Sum(ds[1..])
  }

  lemma SumCons(d: Deal, rest: seq<Deal>)
    ensures Sum([d] + rest) == d.value + Sum(rest)
  {
    assert ([d] + rest)[1..] == rest;
  }

  /** Summing a guarded head: the head counts only when the guard holds. */
  lemma SumGuarded(b: bool, d: Deal, rest: seq<Deal>)
    ensures Sum((if b then [d] else []) + rest) == (if b then d.value else 0) + Sum(rest)
  {
    if b {
      SumCons(d, rest);
    } else {
      assert [] + rest == rest;
    }
  }

  /** The total of a concatenation is the sum of the totals. */
  lemma {:induction false} SumConcat(a: seq<Deal>, b: seq<Deal>)
    ensures Sum(a + b) == Sum(a) + Sum(b)
  {
    if |a| != 0 {
      assert a + b == [a[0]] + (a[1..] + b);
      SumCons(a[0], a[1..] + b);
      SumConcat(a[1..], b);
      SumCons(a[0], a[1..]);
      assert a == [a[0]] + a[1..];
    } else {
      assert a + b == b;
    }
  }

  /** The test `d.stage === key`, as a function value for `Filter`. */
  function StageIs(key: string): Deal -> bool {
    (d: Deal) => d.stage == key
  }

  /** `deals.filter((d) => d.stage === key)`. */
  function WithStage(ds: seq<Deal>, key: string): (r: seq<Deal>)
    ensures forall i :: 0 <= i < |r| ==> r[i] in ds && r[i].stage == key
    ensures forall i :: 0 <= i < |ds| && ds[i].stage == key ==> ds[i] in r
  {
    Filter(ds, StageIs(key))
  }

  lemma WithStageCons(d: Deal, rest: seq<Deal>, key: string)
    ensures WithStage([d] + rest, key) == (if d.stage == key then [d] else []) + WithStage(rest, key)
  {
    FilterCons(d, rest, StageIs(key));
  }

  /** A deal is active unless its stage is one of the two closed keys. */
  predicate IsActive(d: Deal) {
    !IsClosedKey(d.stage)
  }

  /** The deals that are neither won nor lost. */
  function ActiveDeals(ds: seq<Deal>): (r: seq<Deal>)
    ensures forall i :: 0 <= i < |r| ==> r[i] in ds && !IsClosedKey(r[i].stage)
    ensures forall i :: 0 <= i < |ds| && !IsClosedKey(ds[i].stage) ==> ds[i] in r
  {
    Filter(ds, IsActive)
  }

  function WonDeals(ds: seq<Deal>): seq<Deal> {
    WithStage(ds, Key(ClosedWon))
  }

  function LostDeals(ds: seq<Deal>): seq<Deal> {
    WithStage(ds, Key(ClosedLost))
  }

  /** Every deal is exactly one of active, won or lost, whatever its stage
      string, so the three filters split both the count and the value. */
  lemma {:induction false} PartitionByOutcome(ds: seq<Deal>)
    ensures |ActiveDeals(ds)| + |WonDeals(ds)| + |LostDeals(ds)| == |ds|
    ensures Sum(ActiveDeals(ds)) + Sum(WonDeals(ds)) + Sum(LostDeals(ds)) == Sum(ds)
  {
    if |ds| != 0 {
      var d, rest := ds[0], ds[1..];
      assert ds == [d] + rest;
      FilterCons(d, rest, IsActive);
      WithStageCons(d, rest, Key(ClosedWon));
      WithStageCons(d, rest, Key(ClosedLost));
      SumGuarded(IsActive(d), d, ActiveDeals(rest));
      SumGuarded(d.stage == Key(ClosedWon), d, WonDeals(rest));
      SumGuarded(d.stage == Key(ClosedLost), d, LostDeals(rest));
      SumCons(d, rest);
      PartitionByOutcome(rest);
    }
  }

  /** `Math.round(won / closed * 100)`, or 0 when nothing is closed, in
      exact arithmetic: the integer nearest to the percentage, halves
      rounded up. */
  function WinRate(won: nat, lost: nat): (r: nat)
    ensures won + lost == 0 ==> r == 0
    ensures won + lost > 0 ==>
      (won + lost) * (2 * r - 1) <= 200 * won < (won + lost) * (2 * r + 1)
    ensures r <= 100
  {
    var closed := won + lost;
    if closed == 0 then 0
    else
      var q := (200 * won + closed) / (2 * closed);
      RoundingBounds(won, closed, q);
      q
  }

  /** The quotient `(200 * won + closed) / (2 * closed)` is the rounded
      percentage. */
  lemma RoundingBounds(won: nat, closed: nat, q: int)
    requires 0 < closed && won <= closed
    requires q == (200 * won + closed) / (2 * closed)
    ensures closed * (2 * q - 1) <= 200 * won < closed * (2 * q + 1)
    ensures 0 <= q <= 100
  {
    var n, d := 200 * won + closed, 2 * closed;
    var m := n % d;
    assert n == d * q + m && 0 <= m < d;
    assert closed * (2 * q - 1) == d * q - closed;
    assert closed * (2 * q + 1) == d * q + closed;
    assert d * q <= n < d * 101;
    MulStrict(d, q, 101);
    if q < 0 {
      MulStrict(d, q, 0);
    }
  }

  /** Multiplying by a positive factor keeps a strict order. */
  lemma MulStrict(a: int, x: int, y: int)
    requires a > 0
    ensures a * x < a * y <==> x < y
  {
    if x < y {
      assert a * y - a * x == a * (y - x);
    } else {
      assert a * x - a * y == a * (x - y);
    }
  }

  /** The rate is 100 when every closed deal is won and 0 when every closed
      deal is lost. */
  lemma WinRateExtremes(won: nat, lost: nat)
    ensures lost == 0 && won > 0 ==> WinRate(won, lost) == 100
    ensures won == 0 ==> WinRate(won, lost) == 0
  {
    var r: int := WinRate(won, lost);
    if lost == 0 && won > 0 {
      MulStrict(won, 200, 2 * r + 1);
      MulStrict(won, 2 * r - 1, 201);
    }
    if won == 0 && lost > 0 {
      MulStrict(lost, 2 * r - 1, 1);
    }
  }

  /** The figures `usePipelineAnalytics` returns. */
  datatype Figures = Figures(
    totalValue: nat,
    activeDeals: seq<Deal>,
    wonDeals: seq<Deal>,
    lostDeals: seq<Deal>,
    wonValue: nat,
    activeValue: nat,
    winRate: nat)

  /** The analytics of a deal list: a pure function of the list alone. */
  function PipelineAnalytics(ds: seq<Deal>): (a: Figures)
    ensures a.totalValue == Sum(ds)
    ensures a.activeDeals == ActiveDeals(ds) && a.wonDeals == WonDeals(ds) && a.lostDeals == LostDeals(ds)
    ensures a.winRate == WinRate(|a.wonDeals|, |a.lostDeals|)
    ensures |a.activeDeals| + |a.wonDeals| + |a.lostDeals| == |ds|
    ensures a.activeValue + a.wonValue + Sum(a.lostDeals) == a.totalValue
    ensures a.wonValue == Sum(a.wonDeals) && a.activeValue == Sum(a.activeDeals)
    ensures a.winRate <= 100
    ensures |a.wonDeals| + |a.lostDeals| == 0 ==> a.winRate == 0
  {
    PartitionByOutcome(ds);
    var won, lost := WonDeals(ds), LostDeals(ds);
    Figures(Sum(ds), ActiveDeals(ds), won, lost, Sum(won), Sum(ActiveDeals(ds)),
            WinRate(|won|, |lost|))
  }

  /** Won plus active value never exceeds the total, and reaches it when no
      deal is lost. */
  lemma ActiveAndWonWithinTotal(ds: seq<Deal>)
    ensures PipelineAnalytics(ds).wonValue + PipelineAnalytics(ds).activeValue
            <= PipelineAnalytics(ds).totalValue
    ensures (forall i :: 0 <= i < |ds| ==> ds[i].stage != Key(ClosedLost)) ==>
            PipelineAnalytics(ds).wonValue + PipelineAnalytics(ds).activeValue
            == PipelineAnalytics(ds).totalValue
  {
    if forall i :: 0 <= i < |ds| ==> ds[i].stage != Key(ClosedLost) {
      FilterKeepsNone(ds, StageIs(Key(ClosedLost)));
    }
  }

  /** With no closed deal the win rate is 0. */
  lemma WinRateWithoutClosedDeals(ds: seq<Deal>)
    requires forall i :: 0 <= i < |ds| ==> !IsClosedKey(ds[i].stage)
    ensures PipelineAnalytics(ds).winRate == 0
  {
    FilterKeepsNone(ds, StageIs(Key(ClosedWon)));
    FilterKeepsNone(ds, StageIs(Key(ClosedLost)));
  }

  /** The seed pipeline is worth 325000 and has a win rate of 0. */
  lemma SampleAnalytics(loadedAt: string)
    ensures PipelineAnalytics(SampleDeals(loadedAt)).totalValue == 325000
    ensures PipelineAnalytics(SampleDeals(loadedAt)).winRate == 0
    ensures |PipelineAnalytics(SampleDeals(loadedAt)).activeDeals| == 4
  {
    var ds := SampleDeals(loadedAt);
    SampleStagesActive(loadedAt);
    WinRateWithoutClosedDeals(ds);
    FilterKeepsAll(ds, IsActive);
    assert Sum(ds[3..]) == 95000;
    assert Sum(ds[2..]) == 35000 + Sum(ds[3..]);
    assert Sum(ds[1..]) == 120000 + Sum(ds[2..]);
  }

  // Per-stage tallies, shared by the board columns and the summary breakdown.

  /** The deals of one stage and their combined value. */
  datatype Tally = Tally(stage: Stage, deals: seq<Deal>, value: nat)

  function TallyOf(ds: seq<Deal>, s: Stage): Tally {
    var deals := WithStage(ds, Key(s));
    Tally(s, deals, Sum(deals))
  }

  /** One tally per stage of `stages`, in that order. */
  function Tallies(ds: seq<Deal>, stages: seq<Stage>): (ts: seq<Tally>)
    ensures |ts| == |stages|
    ensures forall i :: 0 <= i < |ts| ==> ts[i] == TallyOf(ds, stages[i])
  {
    if |stages| == 0 then [] else [TallyOf(ds, stages[0])] + Tallies(ds, stages[1..])
  }

  function CountTotal(ts: seq<Tally>): nat {
    if |ts| == 0 then 0 else |ts[0].deals| + CountTotal(ts[1..])
  }

  function ValueTotal(ts: seq<Tally>): nat {
    if |ts| == 0 then 0 else ts[0].value + ValueTotal(ts[1..])
  }

  predicate Distinct(stages: seq<Stage>) {
    forall i, j :: 0 <= i < j < |stages| ==> stages[i] != stages[j]
  }

  /** Some stage of `stages` is stored as `k`. */
  predicate KeyIn(k: string, stages: seq<Stage>) {
    FindStage(stages, k).Some?
  }

  /** The tallies of an empty pipeline are all empty. */
  lemma {:induction false} TalliesOfNothing(stages: seq<Stage>)
    ensures CountTotal(Tallies([], stages)) == 0
    ensures ValueTotal(Tallies([], stages)) == 0
  {
    if |stages| != 0 {
      TalliesOfNothing(stages[1..]);
    }
  }

  /** Over distinct stages, a deal lands in at most one tally: in exactly one
      when its stage is among them, in none otherwise. */
  lemma {:induction false} TalliesCons(d: Deal, rest: seq<Deal>, stages: seq<Stage>)
    requires Distinct(stages)
    ensures CountTotal(Tallies([d] + rest, stages))
            == (if KeyIn(d.stage, stages) then 1 else 0) + CountTotal(Tallies(rest, stages))
    ensures ValueTotal(Tallies([d] + rest, stages))
            == (if KeyIn(d.stage, stages) then d.value else 0) + ValueTotal(Tallies(rest, stages))
  {
    if |stages| != 0 {
      var s, more := stages[0], stages[1..];
      assert Distinct(more);
      TalliesCons(d, rest, more);
      WithStageCons(d, rest, Key(s));
      SumGuarded(d.stage == Key(s), d, WithStage(rest, Key(s)));
      if d.stage == Key(s) {
        forall j | 0 <= j < |more| ensures Key(more[j]) != d.stage {
          assert more[j] == stages[j + 1];
          KeyInjective(more[j], s);
        }
        assert !KeyIn(d.stage, more);
      }
    }
  }

  /** Every deal's stage is the key of one of `stages`. */
  predicate Covered(ds: seq<Deal>, stages: seq<Stage>) {
    forall i :: 0 <= i < |ds| ==> KeyIn(ds[i].stage, stages)
  }

  lemma CoveredCons(d: Deal, rest: seq<Deal>, stages: seq<Stage>)
    ensures Covered([d] + rest, stages) <==> KeyIn(d.stage, stages) && Covered(rest, stages)
  {
    var ds := [d] + rest;
    if KeyIn(d.stage, stages) && Covered(rest, stages) {
      forall i | 0 <= i < |ds| ensures KeyIn(ds[i].stage, stages) {
        if i > 0 {
          assert ds[i] == rest[i - 1];
        }
      }
    }
    if Covered(ds, stages) {
      assert ds[0] == d;
      forall i | 0 <= i < |rest| ensures KeyIn(rest[i].stage, stages) {
        assert rest[i] == ds[i + 1];
      }
    }
  }

  /** The tallies over distinct stages account for every deal whose stage is
      among them: the counts add up to the number of deals exactly when every
      deal's stage is covered, and then the values add up to the total. */
  lemma {:induction false} TalliesCover(ds: seq<Deal>, stages: seq<Stage>)
    requires Distinct(stages)
    ensures CountTotal(Tallies(ds, stages)) <= |ds|
    ensures CountTotal(Tallies(ds, stages)) == |ds| <==> Covered(ds, stages)
    ensures Covered(ds, stages) ==> ValueTotal(Tallies(ds, stages)) == Sum(ds)
  {
    if |ds| == 0 {
      TalliesOfNothing(stages);
    } else {
      var d, rest := ds[0], ds[1..];
      assert ds == [d] + rest;
      TalliesCons(d, rest, stages);
      TalliesCover(rest, stages);
      SumCons(d, rest);
      CoveredCons(d, rest, stages);
    }
  }
}

=== FILE: board.dfy ===
/** The pipeline board's tool actions, its stage columns, and the
    invariants the actions keep. Every action is a pure step from the current
    deal list and the tool arguments to the next deal list, the reply handed
    back to the chat runtime, and the notifications raised on the way. */
module Board {
  import opened Optional
  import opened Text
  import opened Seqs
  import opened Types
  import opened Analytics
  import opened Widgets

  datatype Severity = Success | Info | Error

  /** What a toast reports; its wording and icon are presentation. */
  datatype Notice =
    | DealCreated(name: string, value: nat)
    | DealNotFound(name: string)
    | DealMoved(name: string, stage: Stage)
    | ClosedAsWon
    | ClosedAsLost
    | DealDeleted(deletedName: Option<string>)

  /** A notification raised by an action; `Celebrate` is the confetti. */
  datatype Event = Toast(notice: Notice, severity: Severity) | Celebrate

  /** The result handed back to the chat runtime: the message of a plain
      action, or the response of a confirmed one. */
  datatype Reply =
    | Created(name: string, stage: Stage, value: nat, company: string)
    | DuplicateName(name: string, existingStage: string)
    | InvalidStage(given: string, valid: seq<string>)
    | NotFound(name: string, available: seq<string>)
    | Moved(name: string, stage: Stage)
    | Report(deals: nat, totalValue: nat, active: nat, won: nat, wonValue: nat)
    | Responded(approved: bool, outcome: Option<string>)
    | NoResponse

  datatype Step = Step(deals: seq<Deal>, reply: Reply, events: seq<Event>)

  // ---------------------------------------------------------------------
  // Lookup by name.

  /** Some deal is named `name`, up to case. */
  predicate HasName(ds: seq<Deal>, name: string) {
    exists i :: 0 <= i < |ds| && SameName(ds[i].name, name)
  }

  lemma HasNameCons(d: Deal, rest: seq<Deal>, name: string)
    ensures HasName([d] + rest, name) <==> SameName(d.name, name) || HasName(rest, name)
  {
    var ds := [d] + rest;
    if HasName(ds, name) && !SameName(d.name, name) {
      var i :| 0 <= i < |ds| && SameName(ds[i].name, name);
      assert rest[i - 1] == ds[i];
    }
    if HasName(rest, name) {
      var i :| 0 <= i < |rest| && SameName(rest[i].name, name);
      assert ds[i + 1] == rest[i];
    }
    assert ds[0] == d;
  }

  /** The index of the first deal named `name` up to case (`findIndex`). */
  function FindByName(ds: seq<Deal>, name: string): (r: Option<nat>)
    ensures r.Some? <==> HasName(ds, name)
    ensures r.Some? ==> r.value < |ds| && SameName(ds[r.value].name, name)
    ensures r.Some? ==> forall j :: 0 <= j < r.value ==> !SameName(ds[j].name, name)
  {
    if |ds| == 0 then None
    else if SameName(ds[0].name, name) then Some(0)
    else match FindByName(ds[1..], name)
      case None => None
      case Some(i) => Some(i + 1)
  }

  /** `deals.map((d) => d.name)`. */
  function Names(ds: seq<Deal>): seq<string> {
    seq(|ds|, i requires 0 <= i < |ds| => ds[i].name)
  }

  /** `PIPELINE_STAGES` as the strings the rejection message lists. */
  function StageKeys(): seq<string> {
    seq(|PipelineStages|, i requires 0 <= i < |PipelineStages| => Key(PipelineStages[i]))
  }

  /** The updater shared by move_deal and close_deal: the first deal named
      `name` gets `stage`; nothing else changes. */
  function SetStage(ds: seq<Deal>, name: string, stage: string): (r: seq<Deal>)
    ensures |r| == |ds|
    ensures !HasName(ds, name) ==> r == ds
    ensures HasName(ds, name) ==>
      var i := FindByName(ds, name).value;
      && r[i] == ds[i].(stage := stage)
      && forall j :: 0 <= j < |ds| && j != i ==> r[j] == ds[j]
    ensures forall j :: 0 <= j < |ds| ==> r[j] == ds[j].(stage := r[j].stage)
  {
    match FindByName(ds, name)
    case None => ds
    case Some(i) => ds[i := ds[i].(stage := stage)]
  }

  // ---------------------------------------------------------------------
  // create_deal

  /** create_deal: refuse a name already taken up to case, otherwise append
      the new deal. The duplicate check and the append read the same state. */
  function CreateDeal(
    ds: seq<Deal>, name: string, value: nat, company: string,
    contactName: Option<string>, contactEmail: Option<string>, stage: Option<string>,
    id: string, createdAt: string): (r: Step)
    ensures r.reply.DuplicateName? <==> HasName(ds, name)
    ensures HasName(ds, name) ==>
      && r.deals == ds
      && r.events == []
      && r.reply.existingStage == ds[FindByName(ds, name).value].stage
    ensures !HasName(ds, name) ==>
      && |r.deals| == |ds| + 1
      && r.deals[..|ds|] == ds
      && r.deals[|ds|].id == id && r.deals[|ds|].createdAt == createdAt
      && r.deals[|ds|].name == name && r.deals[|ds|].value == value
      && r.deals[|ds|].company == company
      && r.deals[|ds|].contactName == Or(contactName, "")
      && r.deals[|ds|].contactEmail == Or(contactEmail, "")
      && (stage.Some? && IsStageKey(stage.value) ==> r.deals[|ds|].stage == stage.value)
      && (!(stage.Some? && IsStageKey(stage.value)) ==> r.deals[|ds|].stage == Key(Lead))
      && r.reply == Created(name, DefaultStage(stage), value, company)
      && r.events == [Toast(DealCreated(name, value), Success)]
  {
    match FindByName(ds, name)
    case Some(i) => Step(ds, DuplicateName(name, ds[i].stage), [])
    case None =>
      var s := DefaultStage(stage);
      var d := Deal(id, name, value, company, Or(contactName, ""), Or(contactEmail, ""), Key(s), createdAt);
      Step(ds + [d], Created(name, s, value, company), [Toast(DealCreated(name, value), Success)])
  }

  // ---------------------------------------------------------------------
  // move_deal

  /** move_deal: refuse a stage that is not a stage key, report a name with
      no match, otherwise rewrite the stage of the first match. All six stages
      are accepted, the closed ones included. */
  function MoveDeal(ds: seq<Deal>, dealName: string, newStage: string): (r: Step)
    ensures !IsStageKey(newStage) ==>
      r.deals == ds && r.reply == InvalidStage(newStage, StageKeys()) && r.events == []
    ensures IsStageKey(newStage) && !HasName(ds, dealName) ==>
      && r.deals == ds
      && r.reply == NotFound(dealName, Names(ds))
      && r.events == [Toast(DealNotFound(dealName), Error)]
    ensures IsStageKey(newStage) && HasName(ds, dealName) ==>
      var i := FindByName(ds, dealName).value;
      && |r.deals| == |ds|
      && r.deals[i] == ds[i].(stage := newStage)
      && (forall j :: 0 <= j < |ds| && j != i ==> r.deals[j] == ds[j])
      && r.reply.Moved? && Key(r.reply.stage) == newStage
      && r.events == [Toast(DealMoved(dealName, r.reply.stage), Success)]
  {
    match Parse(newStage)
    case None => Step(ds, InvalidStage(newStage, StageKeys()), [])
    case Some(s) =>
      if !HasName(ds, dealName) then
        Step(ds, NotFound(dealName, Names(ds)), [Toast(DealNotFound(dealName), Error)])
      else
        Step(SetStage(ds, dealName, newStage), Moved(dealName, s), [Toast(DealMoved(dealName, s), Success)])
  }

  // ---------------------------------------------------------------------
  // get_pipeline_summary

  /** get_pipeline_summary: report the analytics, change nothing. */
  function GetPipelineSummary(ds: seq<Deal>): (r: Step)
    ensures r.deals == ds && r.events == []
    ensures r.reply.Report? && r.reply.deals == |ds| && r.reply.totalValue == Sum(ds)
    ensures r.reply.active == |ActiveDeals(ds)| && r.reply.won == |WonDeals(ds)|
    ensures r.reply.wonValue == Sum(WonDeals(ds))
    ensures r.reply.active + r.reply.won <= |ds|
    ensures r.reply.wonValue <= r.reply.totalValue
  {
    var a := PipelineAnalytics(ds);
    Step(ds, Report(|ds|, a.totalValue, |a.activeDeals|, |a.wonDeals|, a.wonValue), [])
  }

  /** Asking for the summary twice in a row gives the same answer and leaves
      the pipeline as it was. */
  lemma SummaryIsReadOnly(ds: seq<Deal>)
    ensures GetPipelineSummary(GetPipelineSummary(ds).deals) == GetPipelineSummary(ds)
    ensures GetPipelineSummary(ds).reply.won == |WonDeals(ds)|
  {
  }

  // ---------------------------------------------------------------------
  // close_deal (confirmed by the operator)

  /** The outcome the widget shows and the confirm applies: the argument, or
      `closed_won` when it is missing or empty. */
  function OutcomeOrWon(outcome: Option<string>): string {
    Or(outcome, Key(ClosedWon))
  }

  /** close_deal's confirm callback as written: the outcome is stored as the
      stage without being checked, and the response is sent even when no deal
      matches. */
  function CloseConfirmAsWritten(ds: seq<Deal>, dealName: Option<string>, outcome: Option<string>): (r: Step)
    ensures !HasName(ds, Or(dealName, "")) ==> r.deals == ds
    ensures HasName(ds, Or(dealName, "")) ==>
      var i := FindByName(ds, Or(dealName, "")).value;
      && |r.deals| == |ds|
      && r.deals[i] == ds[i].(stage := OutcomeOrWon(outcome))
      && forall j :: 0 <= j < |ds| && j != i ==> r.deals[j] == ds[j]
    ensures r.reply == Responded(true, outcome)
    ensures Celebrate in r.events <==> OutcomeOrWon(outcome) == Key(ClosedWon)
    ensures OutcomeOrWon(outcome) == Key(ClosedWon) ==> r.events == [Toast(ClosedAsWon, Success), Celebrate]
    ensures OutcomeOrWon(outcome) != Key(ClosedWon) ==> r.events == [Toast(ClosedAsLost, Info)]
  {
    var stage := OutcomeOrWon(outcome);
    var events :=
      if stage == Key(ClosedWon) then [Toast(ClosedAsWon, Success), Celebrate]
      else [Toast(ClosedAsLost, Info)];
    Step(SetStage(ds, Or(dealName, ""), stage), Responded(true, outcome), events)
  }

  /** The cancel callback shared by close_deal and delete_deal: respond
      not approved, change nothing. */
  function Decline(ds: seq<Deal>): (r: Step)
    ensures r.deals == ds && r.events == [] && r.reply == Responded(false, None)
  {
    Step(ds, Responded(false, None), [])
  }

  /** close_deal's confirm callback with the outcome checked: an outcome that
      is not one of the two closed stages is declined like a cancel, so a
      deal's stage stays one of the six. */
  function CloseConfirm(ds: seq<Deal>, dealName: Option<string>, outcome: Option<string>): (r: Step)
    ensures IsClosedKey(OutcomeOrWon(outcome)) ==> r == CloseConfirmAsWritten(ds, dealName, outcome)
    ensures !IsClosedKey(OutcomeOrWon(outcome)) ==> r == Decline(ds)
    ensures AllValid(ds) ==> AllValid(r.deals)
  {
    var stage := OutcomeOrWon(outcome);
    if IsClosedKey(stage) then
      ClosedKeysAreStages();
      SetStageKeepsValid(ds, Or(dealName, ""), stage);
      CloseConfirmAsWritten(ds, dealName, outcome)
    else Decline(ds)
  }

  lemma ClosedKeysAreStages()
    ensures IsStageKey(Key(ClosedWon)) && IsStageKey(Key(ClosedLost))
  {
    ParseRoundTrip(Key(ClosedWon), ClosedWon);
    ParseRoundTrip(Key(ClosedLost), ClosedLost);
  }

  /** What a confirmation callback delivers. The chat runtime hands over
      `respond` only while the call is executing, and `respond?.(...)` does
      nothing without it: the deals and notifications change all the same,
      but the call gets no answer. */
  function Delivered(s: Step, status: Status): (r: Step)
    ensures r.deals == s.deals && r.events == s.events
    ensures status == Executing ==> r == s
    ensures status != Executing ==> r.reply == NoResponse
  {
    if status == Executing then s else s.(reply := NoResponse)
  }

  /** The close_deal exchange: the widget is mounted with the defaulted
      arguments and shows its buttons whatever the status; the operator
      presses buttons, and the one callback fired decides the step. No press
      means the runtime is still waiting. A press before the call is
      executing still runs the callback, but no reply reaches the runtime. */
  function CloseDealFlow(
    ds: seq<Deal>, dealName: Option<string>, outcome: Option<string>,
    status: Status, presses: seq<Button>): (r: Option<Step>)
    ensures |presses| == 0 ==> r.None?
    ensures |presses| > 0 && presses[0] == CancelButton ==> r == Some(Delivered(Decline(ds), status))
    ensures |presses| > 0 && presses[0] == ConfirmButton ==>
      r == Some(Delivered(CloseConfirmAsWritten(ds, dealName, outcome), status))
    ensures r.Some? ==> (r.value.reply.NoResponse? <==> status != Executing)
  {
    var w := NewCloseWidget(Or(dealName, ""), OutcomeOrWon(outcome), status == Executing);
    OneCallbackPerWidget(w, presses);
    var fired := PressAll(w, presses).1;
    if |fired| == 0 then None
    else if fired[0] == OnConfirm then Some(Delivered(CloseConfirmAsWritten(ds, dealName, outcome), status))
    else Some(Delivered(Decline(ds), status))
  }

  // ---------------------------------------------------------------------
  // delete_deal (confirmed by the operator)

  /** The test `d.name.toLowerCase() !== name.toLowerCase()`. */
  function NameDiffers(name: string): Deal -> bool {
    (d: Deal) => !SameName(d.name, name)
  }

  /** Every deal named `name` up to case removed, the rest kept in order. */
  function RemoveNamed(ds: seq<Deal>, name: string): (r: seq<Deal>)
    ensures forall i :: 0 <= i < |r| ==> r[i] in ds && !SameName(r[i].name, name)
    ensures forall i :: 0 <= i < |ds| && !SameName(ds[i].name, name) ==> ds[i] in r
    ensures !HasName(ds, name) ==> r == ds
  {
    FilterKeepsAll(ds, NameDiffers(name));
    Filter(ds, NameDiffers(name))
  }

  /** The removal one deal at a time: the head is dropped when its name
      matches and kept in front otherwise, so the kept deals stay in order,
      each once. */
  lemma RemoveNamedCons(d: Deal, rest: seq<Deal>, name: string)
    ensures RemoveNamed([], name) == []
    ensures RemoveNamed([d] + rest, name) ==
      (if SameName(d.name, name) then [] else [d]) + RemoveNamed(rest, name)
  {
    FilterCons(d, rest, NameDiffers(name));
  }

  /** delete_deal's confirm callback. */
  function DeleteConfirm(ds: seq<Deal>, dealName: Option<string>): (r: Step)
    ensures r.deals == RemoveNamed(ds, Or(dealName, ""))
    ensures forall i :: 0 <= i < |r.deals| ==> r.deals[i] in ds && !SameName(r.deals[i].name, Or(dealName, ""))
    ensures forall i :: 0 <= i < |ds| && !SameName(ds[i].name, Or(dealName, "")) ==> ds[i] in r.deals
    ensures r.reply == Responded(true, None)
    ensures r.events == [Toast(DealDeleted(dealName), Info)]
  {
    Step(RemoveNamed(ds, Or(dealName, "")), Responded(true, None), [Toast(DealDeleted(dealName), Info)])
  }

  /** The delete confirmation offers its two buttons only while the runtime
      reports the call as executing; pressing one runs its callback. */
  function ResolveDelete(ds: seq<Deal>, dealName: Option<string>, status: Status, b: Button): (r: Option<Step>)
    ensures r.Some? <==> status == Executing
    ensures r.Some? && b == CancelButton ==> r.value == Decline(ds)
    ensures r.Some? && b == ConfirmButton ==> r.value == DeleteConfirm(ds, dealName)
  {
    if status != Executing then None
    else match b
      case CancelButton => Some(Decline(ds))
      case ConfirmButton => Some(DeleteConfirm(ds, dealName))
  }

  // ---------------------------------------------------------------------
  // The board columns.

  /** One column per stage in board order: the stage's deals and their value. */
  function Columns(ds: seq<Deal>): (cs: seq<Tally>)
    ensures |cs| == |PipelineStages|
    ensures forall j :: 0 <= j < |cs| ==> cs[j].stage == PipelineStages[j]
    ensures forall i, j :: 0 <= i < |ds| && 0 <= j < |cs| ==>
      (ds[i] in cs[j].deals <==> ds[i].stage == Key(PipelineStages[j]))
    ensures forall j :: 0 <= j < |cs| ==>
      cs[j].deals == WithStage(ds, Key(PipelineStages[j])) && cs[j].value == Sum(cs[j].deals)
  {
    Tallies(ds, PipelineStages)
  }

  /** Every deal with a valid stage sits in exactly the column of its stage:
      the column counts add up to the number of deals exactly when every
      stage is valid, and then the column values add up to the total value. */
  lemma ColumnsPartition(ds: seq<Deal>)
    ensures CountTotal(Columns(ds)) <= |ds|
    ensures CountTotal(Columns(ds)) == |ds| <==> AllValid(ds)
    ensures AllValid(ds) ==> ValueTotal(Columns(ds)) == Sum(ds)
    ensures AllValid(ds) ==> ValueTotal(Columns(ds)) == PipelineAnalytics(ds).totalValue
  {
    PipelineStagesComplete();
    TalliesCover(ds, PipelineStages);
  }

  // ---------------------------------------------------------------------
  // Invariants.

  /** Rewriting one stage to a stage key keeps every stage valid. */
  lemma SetStageKeepsValid(ds: seq<Deal>, name: string, stage: string)
    ensures AllValid(ds) && IsStageKey(stage) ==> AllValid(SetStage(ds, name, stage))
  {
    var r := SetStage(ds, name, stage);
    forall j | AllValid(ds) && IsStageKey(stage) && 0 <= j < |r| ensures IsStageKey(r[j].stage) {
      if HasName(ds, name) && j == FindByName(ds, name).value {
        assert r[j].stage == stage;
      } else {
        assert r[j] == ds[j];
      }
    }
  }

  /** Rewriting a stage leaves every name where it was. */
  lemma SetStageKeepsNamesUnique(ds: seq<Deal>, name: string, stage: string)
    requires NamesUnique(ds)
    ensures NamesUnique(SetStage(ds, name, stage))
  {
    var r := SetStage(ds, name, stage);
    assert forall j :: 0 <= j < |ds| ==> r[j].name == ds[j].name;
  }

  /** A filter keeps the uniqueness invariant. */
  lemma {:induction false} FilterKeepsNamesUnique(ds: seq<Deal>, keep: Deal -> bool)
    requires NamesUnique(ds)
    ensures NamesUnique(Filter(ds, keep))
  {
    if |ds| != 0 {
      var d, rest := ds[0], ds[1..];
      assert ds == [d] + rest;
      NamesUniqueCons(d, rest);
      FilterKeepsNamesUnique(rest, keep);
      FilterCons(d, rest, keep);
      var fr := Filter(rest, keep);
      if keep(d) {
        forall k | 0 <= k < |fr| ensures !SameName(d.name, fr[k].name) {
          var m :| 0 <= m < |rest| && rest[m] == fr[k];
        }
        NamesUniqueCons(d, fr);
      } else {
        assert [] + fr == fr;
      }
    }
  }

  /** create_deal keeps names unique: it appends only a name nobody has. */
  lemma CreateKeepsNamesUnique(
    ds: seq<Deal>, name: string, value: nat, company: string,
    contactName: Option<string>, contactEmail: Option<string>, stage: Option<string>,
    id: string, createdAt: string)
    requires NamesUnique(ds)
    ensures NamesUnique(CreateDeal(ds, name, value, company, contactName, contactEmail, stage, id, createdAt).deals)
  {
    var r := CreateDeal(ds, name, value, company, contactName, contactEmail, stage, id, createdAt).deals;
    if !HasName(ds, name) {
      forall i, j | 0 <= i < j < |r| ensures !SameName(r[i].name, r[j].name) {
        assert r[i] == ds[i];
        if j < |ds| {
          assert r[j] == ds[j];
        } else {
          assert r[j].name == name;
        }
      }
    }
  }

  /** create_deal files the new deal under a stage key. */
  lemma CreateKeepsValid(
    ds: seq<Deal>, name: string, value: nat, company: string,
    contactName: Option<string>, contactEmail: Option<string>, stage: Option<string>,
    id: string, createdAt: string)
    requires AllValid(ds)
    ensures AllValid(CreateDeal(ds, name, value, company, contactName, contactEmail, stage, id, createdAt).deals)
  {
    var r := CreateDeal(ds, name, value, company, contactName, contactEmail, stage, id, createdAt).deals;
    if !HasName(ds, name) {
      var s := DefaultStage(stage);
      ParseRoundTrip(Key(s), s);
      assert r[|ds|].stage == Key(s);
      forall i | 0 <= i < |r| ensures IsStageKey(r[i].stage) {
        if i < |ds| {
          assert r[i] == ds[i];
        }
      }
    }
  }

  /** With unique names, a confirmed delete removes exactly the one matching
      deal, or nothing when no deal matches. */
  lemma {:induction false} DeleteRemovesAtMostOne(ds: seq<Deal>, name: string)
    requires NamesUnique(ds)
    ensures |RemoveNamed(ds, name)| == |ds| - (if HasName(ds, name) then 1 else 0)
  {
    if |ds| != 0 {
      var d, rest := ds[0], ds[1..];
      assert ds == [d] + rest;
      NamesUniqueCons(d, rest);
      FilterCons(d, rest, NameDiffers(name));
      HasNameCons(d, rest, name);
      if SameName(d.name, name) {
        assert !HasName(rest, name);
        assert RemoveNamed(rest, name) == rest;
      } else {
        DeleteRemovesAtMostOne(rest, name);
      }
    }
  }

  /** The actions as the chat runtime invokes them, with the operator's
      answer for the two confirmed ones. */
  datatype Action =
    | Create(name: string, value: nat, company: string,
             contactName: Option<string>, contactEmail: Option<string>, stage: Option<string>,
             id: string, createdAt: string)
    | Move(dealName: string, newStage: string)
    | Summarize
    | Close(target: Option<string>, outcome: Option<string>, confirmed: bool)
    | Delete(target: Option<string>, confirmed: bool)

  /** One action, with the checked confirm of close_deal. */
  function Apply(ds: seq<Deal>, a: Action): Step {
    match a
    case Create(n, v, c, cn, ce, st, id, at) => CreateDeal(ds, n, v, c, cn, ce, st, id, at)
    case Move(n, st) => MoveDeal(ds, n, st)
    case Summarize => GetPipelineSummary(ds)
    case Close(n, o, yes) => if yes then CloseConfirm(ds, n, o) else Decline(ds)
    case Delete(n, yes) => if yes then DeleteConfirm(ds, n) else Decline(ds)
  }

  /** Every action keeps names unique and stages valid. */
  lemma ApplyKeepsInvariants(ds: seq<Deal>, a: Action)
    requires NamesUnique(ds) && AllValid(ds)
    ensures NamesUnique(Apply(ds, a).deals) && AllValid(Apply(ds, a).deals)
  {
    match a
    case Create(n, v, c, cn, ce, st, id, at) =>
      CreateKeepsNamesUnique(ds, n, v, c, cn, ce, st, id, at);
      CreateKeepsValid(ds, n, v, c, cn, ce, st, id, at);
    case Move(n, st) =>
      SetStageKeepsNamesUnique(ds, n, st);
      if IsStageKey(st) {
        SetStageKeepsValid(ds, n, st);
      }
    case Summarize =>
    case Close(n, o, yes) =>
      SetStageKeepsNamesUnique(ds, Or(n, ""), OutcomeOrWon(o));
    case Delete(n, yes) =>
      FilterKeepsNamesUnique(ds, NameDiffers(Or(n, "")));
      var r := RemoveNamed(ds, Or(n, ""));
      forall i | 0 <= i < |r| ensures IsStageKey(r[i].stage) {
        var m :| 0 <= m < |ds| && ds[m] == r[i];
      }
  }

  /** The pipeline after a sequence of actions. */
  function Run(ds: seq<Deal>, actions: seq<Action>): seq<Deal>
    decreases |actions|
  {
    if |actions| == 0 then ds else Run(Apply(ds, actions[0]).deals, actions[1..])
  }

  /** Starting from the seed, every sequence of actions leaves names unique
      and every deal in exactly the column of its stage. */
  lemma {:induction false} RunKeepsInvariants(ds: seq<Deal>, actions: seq<Action>)
    requires NamesUnique(ds) && AllValid(ds)
    ensures NamesUnique(Run(ds, actions)) && AllValid(Run(ds, actions))
    decreases |actions|
  {
    if |actions| != 0 {
      ApplyKeepsInvariants(ds, actions[0]);
      RunKeepsInvariants(Apply(ds, actions[0]).deals, actions[1..]);
    }
  }

  lemma FromSeed(loadedAt: string, actions: seq<Action>)
    ensures NamesUnique(Run(SampleDeals(loadedAt), actions))
    ensures CountTotal(Columns(Run(SampleDeals(loadedAt), actions))) == |Run(SampleDeals(loadedAt), actions)|
  {
    SampleNamesUnique(loadedAt);
    SampleStagesActive(loadedAt);
    RunKeepsInvariants(SampleDeals(loadedAt), actions);
    ColumnsPartition(Run(SampleDeals(loadedAt), actions));
  }

  // ---------------------------------------------------------------------
  // The unchecked outcome of close_deal.

  /** One action as the code runs it: a confirmed close stores its outcome
      unchecked; every other action is as in `Apply`. */
  function ApplyAsWritten(ds: seq<Deal>, a: Action): Step {
    if a.Close? && a.confirmed then CloseConfirmAsWritten(ds, a.target, a.outcome) else Apply(ds, a)
  }

  function RunAsWritten(ds: seq<Deal>, actions: seq<Action>): seq<Deal>
    decreases |actions|
  {
    if |actions| == 0 then ds else RunAsWritten(ApplyAsWritten(ds, actions[0]).deals, actions[1..])
  }

  /** Name uniqueness does not depend on the stages, so the code as written
      keeps it too. */
  lemma ApplyAsWrittenKeepsNamesUnique(ds: seq<Deal>, a: Action)
    requires NamesUnique(ds)
    ensures NamesUnique(ApplyAsWritten(ds, a).deals)
  {
    match a
    case Create(n, v, c, cn, ce, st, id, at) =>
      CreateKeepsNamesUnique(ds, n, v, c, cn, ce, st, id, at);
    case Move(n, st) =>
      SetStageKeepsNamesUnique(ds, n, st);
    case Summarize =>
    case Close(n, o, yes) =>
      SetStageKeepsNamesUnique(ds, Or(n, ""), OutcomeOrWon(o));
    case Delete(n, yes) =>
      FilterKeepsNamesUnique(ds, NameDiffers(Or(n, "")));
  }

  lemma {:induction false} RunAsWrittenKeepsNamesUnique(ds: seq<Deal>, actions: seq<Action>)
    requires NamesUnique(ds)
    ensures NamesUnique(RunAsWritten(ds, actions))
    decreases |actions|
  {
    if |actions| != 0 {
      ApplyAsWrittenKeepsNamesUnique(ds, actions[0]);
      RunAsWrittenKeepsNamesUnique(ApplyAsWritten(ds, actions[0]).deals, actions[1..]);
    }
  }

  /** The two programs take the same step on every action except a
      confirmed close whose outcome is not a closed stage. */
  lemma ApplyAsWrittenAgrees(ds: seq<Deal>, a: Action)
    ensures !(a.Close? && a.confirmed && !IsClosedKey(OutcomeOrWon(a.outcome))) ==>
      ApplyAsWritten(ds, a) == Apply(ds, a)
  {
  }

  /** Confirming a close with an outcome that is no stage key stores it as
      the deal's stage; that deal then sits in no column, so the column
      counts no longer add up. */
  lemma CloseAsWrittenLeavesColumns(ds: seq<Deal>, name: string, outcome: string)
    requires HasName(ds, name) && outcome != "" && !IsStageKey(outcome)
    ensures !AllValid(CloseConfirmAsWritten(ds, Some(name), Some(outcome)).deals)
    ensures CountTotal(Columns(CloseConfirmAsWritten(ds, Some(name), Some(outcome)).deals))
            < |CloseConfirmAsWritten(ds, Some(name), Some(outcome)).deals|
  {
    var r := CloseConfirmAsWritten(ds, Some(name), Some(outcome)).deals;
    var i := FindByName(ds, name).value;
    assert r[i].stage == outcome;
    ColumnsPartition(r);
  }

  /** For instance: closing the seed's "Cloud Migration" with outcome "won". */
  lemma CloseAsWrittenSeedExample(loadedAt: string)
    ensures var r := CloseConfirmAsWritten(SampleDeals(loadedAt), Some("Cloud Migration"), Some("won"));
      && !AllValid(r.deals)
      && CountTotal(Columns(r.deals)) < |r.deals|
      && r.reply == Responded(true, Some("won"))
  {
    var ds := SampleDeals(loadedAt);
    assert ds[0].name == "Cloud Migration";
    assert HasName(ds, "Cloud Migration");
    ShortStringsAreNotKeys("won");
    CloseAsWrittenLeavesColumns(ds, "Cloud Migration", "won");
  }

  // ---------------------------------------------------------------------
  // The previews against the handlers.

  /** The create tool renders its preview with `stage || "lead"`. The
      preview as written shows the stage the handler stores whenever the
      stage argument is missing, empty or a stage key. For any other string
      the handler files the deal under `lead`, while the preview either fails
      or, for an inherited property name, draws an entry with no stage. */
  lemma PreviewStageMatchesCreate(a: DealArgs, status: Status)
    requires HasData(a)
    ensures var v := DealPreview(a.(stage := Some(Or(a.stage, Key(Lead)))), status);
      !(Truthy(a.stage) && !IsStageKey(a.stage.value)) ==>
        v.DealCard? && v.entry == Own(DefaultStage(a.stage))
    ensures var v := DealPreview(a.(stage := Some(Or(a.stage, Key(Lead)))), status);
      Truthy(a.stage) && !IsStageKey(a.stage.value) ==>
        && DefaultStage(a.stage) == Lead
        && (v.PreviewThrows? <==> a.stage.value !in InheritedNames)
        && (v.DealCard? ==> v.entry == Inherited)
  {
    var v := DealPreview(a.(stage := Some(Or(a.stage, Key(Lead)))), status);
    ParseRoundTrip(Key(Lead), Lead);
    if v.DealCard? && v.entry.Own? {
      var d := DefaultStage(a.stage);
      if Truthy(a.stage) {
        KeyInjective(v.entry.stage, d);
      } else {
        ShortStringsAreNotKeys("");
        KeyInjective(v.entry.stage, Lead);
      }
    }
  }

  /** The checked preview, rendered the same way, always shows the stage
      the handler stores. */
  lemma CheckedPreviewMatchesCreate(a: DealArgs, status: Status)
    requires HasData(a)
    ensures DealPreviewChecked(a.(stage := Some(Or(a.stage, Key(Lead)))), status)
            == DealCard(status == Complete, Own(DefaultStage(a.stage)), status == Executing)
  {
    ParseRoundTrip(Key(Lead), Lead);
    if !Truthy(a.stage) {
      ShortStringsAreNotKeys("");
    }
  }

  /** The move preview names the stage move_deal files the deal under. */
  lemma PreviewStageMatchesMove(ds: seq<Deal>, dealName: string, newStage: string, status: Status)
    requires dealName != "" && IsStageKey(newStage) && HasName(ds, dealName)
    ensures MovePreview(dealName, newStage, status).stage == Some(MoveDeal(ds, dealName, newStage).reply.stage)
  {
    var s := MoveDeal(ds, dealName, newStage).reply.stage;
    ParseRoundTrip(newStage, s);
  }
}

=== FILE: optional.dfy ===
/** An optional value: a tool argument the chat runtime may leave out. */
module Optional {

  datatype Option<+T> = None | Some(value: T)

  /** JavaScript's `s || default` on an optional string: both a missing
      value and the empty string are falsy and give way to `default`. */
  function Or(s: Option<string>, default: string): (r: string)
    ensures r == default || (s.Some? && r == s.value)
    ensures r == default <==> s.None? || s.value == "" || s.value == default
  {
    if s.Some? && s.value != "" then s.value else default
  }

  /** JavaScript truthiness of an optional string. */
  predicate Truthy(s: Option<string>) {
    s.Some? && s.value != ""
  }
}

=== FILE: seqs.dfy ===
/** `Array.prototype.filter` over immutable sequences. */
module Seqs {

  /** The elements of `s` that satisfy `keep`, in their original order. */
  function Filter<T>(s: seq<T>, keep: T -> bool): (r: seq<T>)
    ensures |r| <= |s|
    ensures forall i :: 0 <= i < |r| ==> r[i] in s && keep(r[i])
    ensures forall i :: 0 <= i < |s| && keep(s[i]) ==> s[i] in r
  {
    if |s| == 0 then [] else (if keep(s[0]) then [s[0]] else []) + Filter(s[1..], keep)
  }

  /** Filtering a sequence headed by `x` decides `x` and filters the rest. */
  lemma FilterCons<T>(x: T, s: seq<T>, keep: T -> bool)
    ensures Filter([x] + s, keep) == (if keep(x) then [x] else []) + Filter(s, keep)
  {
    assert ([x] + s)[1..] == s;
  }

  /** Filtering commutes with concatenation: the filter keeps the relative
      order of the elements it retains. */
  lemma {:induction false} FilterConcat<T>(a: seq<T>, b: seq<T>, keep: T -> bool)
    ensures Filter(a + b, keep) == Filter(a, keep) + Filter(b, keep)
  {
    if |a| == 0 {
      assert a + b == b;
    } else {
      var x, rest := a[0], a[1..];
      var h := if keep(x) then [x] else [];
      assert a == [x] + rest;
      assert a + b == [x] + (rest + b);
      calc {
        Filter(a + b, keep);
        { FilterCons(x, rest + b, keep); }
        h + Filter(rest + b, keep);
        { FilterConcat(rest, b, keep); }
        h + (Filter(rest, keep) + Filter(b, keep));
        (h + Filter(rest, keep)) + Filter(b, keep);
        { FilterCons(x, rest, keep); }
        Filter(a, keep) + Filter(b, keep);
      }
    }
  }

  /** A filter keeps everything exactly when every element passes, and then
      it is the identity. */
  lemma {:induction false} FilterKeepsAll<T>(s: seq<T>, keep: T -> bool)
    ensures |Filter(s, keep)| == |s| <==> forall i :: 0 <= i < |s| ==> keep(s[i])
    ensures (forall i :: 0 <= i < |s| ==> keep(s[i])) ==> Filter(s, keep) == s
  {
    if |s| != 0 {
      var x, rest := s[0], s[1..];
      assert s == [x] + rest;
      FilterCons(x, rest, keep);
      FilterKeepsAll(rest, keep);
      if keep(x) {
        if exists i :: 1 <= i < |s| && !keep(s[i]) {
          var i :| 1 <= i < |s| && !keep(s[i]);
          assert !keep(rest[i - 1]);
        }
      }
    }
  }

  /** A filter that rejects every element yields the empty sequence. */
  lemma {:induction false} FilterKeepsNone<T>(s: seq<T>, keep: T -> bool)
    requires forall i :: 0 <= i < |s| ==> !keep(s[i])
    ensures Filter(s, keep) == []
  {
    if |s| != 0 {
      assert forall i :: 0 <= i < |s[1..]| ==> !keep(s[1..][i]);
      FilterKeepsNone(s[1..], keep);
    }
  }
}

=== FILE: summary.dfy ===
/** The pipeline summary card: headline totals and the per-stage breakdown. */
module Summary {
  import opened Types
  import opened Analytics

  /** One line of the stage breakdown. */
  datatype BreakdownRow = BreakdownRow(stage: Stage, stageLabel: string, count: nat, value: nat)

  function RowOf(t: Tally): BreakdownRow {
    BreakdownRow(t.stage, Label(t.stage), |t.deals|, t.value)
  }

  function Rows(ts: seq<Tally>): (rows: seq<BreakdownRow>)
    ensures |rows| == |ts|
    ensures forall i :: 0 <= i < |ts| ==> rows[i] == RowOf(ts[i])
  {
    if |ts| == 0 then [] else [RowOf(ts[0])] + Rows(ts[1..])
  }

  function CountSum(rows: seq<BreakdownRow>): nat {
    if |rows| == 0 then 0 else rows[0].count + CountSum(rows[1..])
  }

  function ValueSum(rows: seq<BreakdownRow>): nat {
    if |rows| == 0 then 0 else rows[0].value + ValueSum(rows[1..])
  }

  lemma {:induction false} RowSums(ts: seq<Tally>)
    ensures CountSum(Rows(ts)) == CountTotal(ts)
    ensures ValueSum(Rows(ts)) == ValueTotal(ts)
  {
    if |ts| != 0 {
      assert Rows(ts)[1..] == Rows(ts[1..]);
      RowSums(ts[1..]);
    }
  }

  /** One row per configured stage, in configuration order, each counting and
      summing exactly the deals stored under that stage's key. */
  function StageBreakdown(ds: seq<Deal>): (rows: seq<BreakdownRow>)
    ensures |rows| == |StageConfigOrder|
    ensures forall i :: 0 <= i < |rows| ==>
      && rows[i].stage == StageConfigOrder[i]
      && rows[i].stageLabel == Label(StageConfigOrder[i])
      && rows[i].count == |WithStage(ds, Key(StageConfigOrder[i]))|
      && rows[i].value == Sum(WithStage(ds, Key(StageConfigOrder[i])))
  {
    Rows(Tallies(ds, StageConfigOrder))
  }

  /** The headline figures of the card. */
  datatype Headline = Headline(deals: nat, totalValue: nat, active: nat, wonValue: nat)

  function PipelineHeadline(ds: seq<Deal>): (h: Headline)
    ensures h.deals == |ds|
    ensures h.totalValue == Sum(ds) && h.active == |ActiveDeals(ds)| && h.wonValue == Sum(WonDeals(ds))
    ensures h.active <= |ds|
    ensures h.wonValue <= h.totalValue
  {
    PartitionByOutcome(ds);
    Headline(|ds|, Sum(ds), |ActiveDeals(ds)|, Sum(WonDeals(ds)))
  }

  /** The card's totals agree with the analytics of the same list. */
  lemma HeadlineAgreesWithAnalytics(ds: seq<Deal>)
    ensures PipelineHeadline(ds).totalValue == PipelineAnalytics(ds).totalValue
    ensures PipelineHeadline(ds).active == |PipelineAnalytics(ds).activeDeals|
    ensures PipelineHeadline(ds).wonValue == PipelineAnalytics(ds).wonValue
  {
  }

  /** The breakdown counts add up to the number of deals exactly when every
      stage is valid, and then the values add up to the total. */
  lemma BreakdownTotals(ds: seq<Deal>)
    ensures CountSum(StageBreakdown(ds)) <= |ds|
    ensures CountSum(StageBreakdown(ds)) == |ds| <==> AllValid(ds)
    ensures AllValid(ds) ==> ValueSum(StageBreakdown(ds)) == Sum(ds)
  {
    PipelineStagesComplete();
    RowSums(Tallies(ds, StageConfigOrder));
    TalliesCover(ds, StageConfigOrder);
  }

  /** The closed-won row carries the won count and the won value. */
  lemma BreakdownWonRow(ds: seq<Deal>)
    ensures StageBreakdown(ds)[4].count == |WonDeals(ds)|
    ensures StageBreakdown(ds)[4].value == PipelineHeadline(ds).wonValue
  {
    assert StageConfigOrder[4] == ClosedWon;
  }

  /** With valid stages, the four active rows add up to the active count. */
  lemma BreakdownActiveRows(ds: seq<Deal>)
    requires AllValid(ds)
    ensures CountSum(StageBreakdown(ds)[..4]) == PipelineHeadline(ds).active
  {
    var rows := StageBreakdown(ds);
    assert StageConfigOrder[4] == ClosedWon && StageConfigOrder[5] == ClosedLost;
    var won, lost := rows[4].count, rows[5].count;
    assert won == |WonDeals(ds)| && lost == |LostDeals(ds)|;
    BreakdownTotals(ds);
    CountSumSplit(rows, 4);
    CountSumPair(rows[4..]);
    PartitionByOutcome(ds);
  }

  lemma CountSumPair(rows: seq<BreakdownRow>)
    requires |rows| == 2
    ensures CountSum(rows) == rows[0].count + rows[1].count
  {
    assert rows[1..][0] == rows[1];
    assert rows[1..][1..] == [];
    assert CountSum(rows[1..]) == rows[1].count + CountSum([]);
  }

  lemma {:induction false} CountSumSplit(rows: seq<BreakdownRow>, k: nat)
    requires k <= |rows|
    ensures CountSum(rows) == CountSum(rows[..k]) + CountSum(rows[k..])
  {
    if k != 0 {
      assert rows[..k][1..] == rows[1..][..k - 1];
      assert rows[k..] == rows[1..][k - 1..];
      CountSumSplit(rows[1..], k - 1);
    } else {
      assert rows[k..] == rows;
    }
  }
}

=== FILE: text.dfy ===
/** Case-insensitive name comparison. Deal names are compared through
    `toLowerCase`, modelled here on ASCII letters only. */
module Text {

  predicate IsUpper(c: char) {
    'A' <= c <= 'Z'
  }

  function LowerChar(c: char): (r: char)
    ensures !IsUpper(r)
    ensures IsUpper(c) ==> r as int == c as int + 32
    ensures !IsUpper(c) ==> r == c
  {
    if IsUpper(c) then (c as int + 32) as char else c
  }

  /** `s.toLowerCase()` restricted to ASCII. */
  function Lower(s: string): (r: string)
    ensures |r| == |s|
    ensures forall i :: 0 <= i < |s| ==> r[i] == LowerChar(s[i])
  {
    if |s| == 0 then [] else [LowerChar(s[0])] + Lower(s[1..])
  }

  /** `a.toLowerCase() === b.toLowerCase()`. */
  predicate SameName(a: string, b: string) {
    Lower(a) == Lower(b)
  }

  /** Names of different lengths never collide. */
  lemma DifferentLengthsDiffer(a: string, b: string)
    requires |a| != |b|
    ensures !SameName(a, b)
  {
    assert |Lower(a)| != |Lower(b)|;
  }
}

=== FILE: types.dfy ===
/** The stage domain, the deal record and the seed pipeline. */
module Types {
  import opened Optional
  import opened Text

  /** The six pipeline phases: four active, two closed. */
  datatype Stage = Lead | Qualified | Proposal | Negotiation | ClosedWon | ClosedLost

  /** The string a stage is stored and exchanged as. */
  function Key(s: Stage): string {
    match s
    case Lead => "lead"
    case Qualified => "qualified"
    case Proposal => "proposal"
    case Negotiation => "negotiation"
    case ClosedWon => "closed_won"
    case ClosedLost => "closed_lost"
  }

  /** The `label` of the stage's configuration entry. */
  function Label(s: Stage): string {
    match s
    case Lead => "Lead"
    case Qualified => "Qualified"
    case Proposal => "Proposal"
    case Negotiation => "Negotiation"
    case ClosedWon => "Closed Won"
    case ClosedLost => "Closed Lost"
  }

  /** The board's column order. */
  const PipelineStages: seq<Stage> :=
    [Lead, Qualified, Proposal, Negotiation, ClosedWon, ClosedLost]

  /** The key order of the stage configuration record, which is the order
      its entries are enumerated in. */
  const StageConfigOrder: seq<Stage> :=
    [Lead, Qualified, Proposal, Negotiation, ClosedWon, ClosedLost]

  /** The first stage of `stages` whose key is `k`. */
  function FindStage(stages: seq<Stage>, k: string): (r: Option<Stage>)
    ensures r.Some? ==> r.value in stages && Key(r.value) == k
    ensures r.None? ==> forall i :: 0 <= i < |stages| ==> Key(stages[i]) != k
  {
    if |stages| == 0 then None
    else if Key(stages[0]) == k then Some(stages[0])
    else FindStage(stages[1..], k)
  }

  /** `PIPELINE_STAGES.includes(k)` followed by the cast to a stage. */
  function Parse(k: string): Option<Stage> {
    FindStage(PipelineStages, k)
  }

  predicate IsStageKey(k: string) {
    Parse(k).Some?
  }

  /** Different stages are stored as different strings. */
  lemma KeyInjective(a: Stage, b: Stage)
    ensures Key(a) == Key(b) ==> a == b
  {
  }

  /** Parsing inverts `Key`, and accepts nothing else. */
  lemma ParseRoundTrip(k: string, s: Stage)
    ensures Parse(k) == Some(s) <==> k == Key(s)
  {
    if k == Key(s) {
      assert s in PipelineStages;
      var r := Parse(k);
      if r.Some? {
        KeyInjective(r.value, s);
      }
    }
  }

  /** Every stage key is at least four characters long, so no shorter
      string is accepted as a stage. */
  lemma ShortStringsAreNotKeys(k: string)
    requires |k| < 4
    ensures !IsStageKey(k)
  {
    forall s: Stage ensures Key(s) != k {
      assert |Key(s)| >= 4;
    }
  }

  /** Every stage occurs exactly once in the column order, which is the
      order the source lists; the configuration record enumerates its keys in
      the same order. */
  lemma PipelineStagesComplete()
    ensures |PipelineStages| == 6
    ensures forall s: Stage :: s in PipelineStages
    ensures forall i, j :: 0 <= i < j < |PipelineStages| ==> PipelineStages[i] != PipelineStages[j]
    ensures StageConfigOrder == PipelineStages
  {
    forall s: Stage ensures s in PipelineStages {
      match s
      case Lead => assert PipelineStages[0] == s;
      case Qualified => assert PipelineStages[1] == s;
      case Proposal => assert PipelineStages[2] == s;
      case Negotiation => assert PipelineStages[3] == s;
      case ClosedWon => assert PipelineStages[4] == s;
      case ClosedLost => assert PipelineStages[5] == s;
    }
  }

  /** The configuration labels tell the stages apart. */
  lemma LabelsDistinct(a: Stage, b: Stage)
    ensures Label(a) == Label(b) ==> a == b
  {
  }

  /** The stage `create_deal` files a new deal under: the given one when it is a stage
      key, `lead` otherwise. */
  function DefaultStage(stage: Option<string>): (r: Stage)
    ensures stage.Some? && IsStageKey(stage.value) ==> Key(r) == stage.value
    ensures !(stage.Some? && IsStageKey(stage.value)) ==> r == Lead
  {
    if stage.Some? && Parse(stage.value).Some? then Parse(stage.value).value else Lead
  }

  /** The properties every JavaScript object inherits from
      `Object.prototype`. Indexing the stage configuration record with one of
      them yields a truthy value that has no `color`, `emoji` or `label`. */
  const InheritedNames: set<string> := {
    "constructor", "hasOwnProperty", "isPrototypeOf", "propertyIsEnumerable",
    "toLocaleString", "toString", "valueOf", "__proto__",
    "__defineGetter__", "__defineSetter__", "__lookupGetter__", "__lookupSetter__" }

  /** What indexing the stage configuration record with a string yields: a
      stage's own entry, an inherited property, or `undefined`. */
  datatype ConfigEntry = Own(stage: Stage) | Inherited | Undefined

  lemma KeysAreNotInherited(s: Stage)
    ensures Key(s) !in InheritedNames
  {
  }

  /** `STAGE_CONFIG[k]`. */
  function ConfigLookup(k: string): (r: ConfigEntry)
    ensures r.Own? <==> IsStageKey(k)
    ensures r.Own? ==> Key(r.stage) == k
    ensures r.Inherited? <==> k in InheritedNames
    ensures r.Undefined? <==> !IsStageKey(k) && k !in InheritedNames
  {
    match Parse(k)
    case Some(s) =>
      ParseRoundTrip(k, s);
      KeysAreNotInherited(s);
      Own(s)
    case None => if k in InheritedNames then Inherited else Undefined
  }

  /** One sales opportunity. `stage` holds whatever string was last stored;
      the stage enum is what the actions are meant to store there. Values are
      whole currency units. */
  datatype Deal = Deal(
    id: string,
    name: string,
    value: nat,
    company: string,
    contactName: string,
    contactEmail: string,
    stage: string,
    createdAt: string)

  /** The uniqueness invariant: no two deals share a name up to case. */
  predicate NamesUnique(ds: seq<Deal>) {
    forall i, j :: 0 <= i < j < |ds| ==> !SameName(ds[i].name, ds[j].name)
  }

  /** Every deal's stage is one of the six keys. */
  predicate AllValid(ds: seq<Deal>) {
    forall i :: 0 <= i < |ds| ==> IsStageKey(ds[i].stage)
  }

  /** Uniqueness of a sequence headed by `d`: the rest is unique and no name
      in it collides with `d`'s. */
  lemma NamesUniqueCons(d: Deal, s: seq<Deal>)
    ensures NamesUnique([d] + s) <==>
      NamesUnique(s) && forall k :: 0 <= k < |s| ==> !SameName(d.name, s[k].name)
  {
    var ds := [d] + s;
    if NamesUnique(ds) {
      forall i, j | 0 <= i < j < |s| ensures !SameName(s[i].name, s[j].name) {
        assert s[i] == ds[i + 1] && s[j] == ds[j + 1];
      }
      forall k | 0 <= k < |s| ensures !SameName(d.name, s[k].name) {
        assert d == ds[0] && s[k] == ds[k + 1];
        assert !SameName(ds[0].name, ds[k + 1].name);
      }
    }
    if NamesUnique(s) && forall k :: 0 <= k < |s| ==> !SameName(d.name, s[k].name) {
      forall i, j | 0 <= i < j < |ds| ensures !SameName(ds[i].name, ds[j].name) {
        assert ds[j] == s[j - 1];
        if i > 0 {
          assert ds[i] == s[i - 1];
        }
      }
    }
  }

  predicate IdsUnique(ds: seq<Deal>) {
    forall i, j :: 0 <= i < j < |ds| ==> ds[i].id != ds[j].id
  }

  /** A deal's stage is closed when it is one of the two terminal keys. */
  predicate IsClosedKey(k: string) {
    k == Key(ClosedWon) || k == Key(ClosedLost)
  }

  /** The seed pipeline. Each record is stamped by its own `new Date()` call
      when the module is loaded; the four calls may fall in different
      milliseconds, and one `loadedAt` stands for all of them, since no
      property here depends on `createdAt`. */
  function SampleDeals(loadedAt: string): seq<Deal> {
    [ Deal("deal_1", "Cloud Migration", 75000, "TechStart Inc",
           "Sarah Chen", "sarah@techstart.com", Key(Qualified), loadedAt),
      Deal("deal_2", "Annual SaaS License", 120000, "GlobalCorp",
           "James Wilson", "jwilson@globalcorp.com", Key(Proposal), loadedAt),
      Deal("deal_3", "Security Audit", 35000, "FinSecure",
           "Priya Patel", "priya@finsecure.io", Key(Lead), loadedAt),
      Deal("deal_4", "Data Analytics Platform", 95000, "DataDriven Co",
           "Alex Kim", "alex@datadriven.co", Key(Negotiation), loadedAt) ]
  }

  /** The seed satisfies the uniqueness invariant. */
  lemma SampleNamesUnique(loadedAt: string)
    ensures NamesUnique(SampleDeals(loadedAt))
  {
    var ds := SampleDeals(loadedAt);
    assert |ds[0].name| == 15 && |ds[1].name| == 19 && |ds[2].name| == 14 && |ds[3].name| == 23;
    forall i, j | 0 <= i < j < |ds| ensures !SameName(ds[i].name, ds[j].name) {
      DifferentLengthsDiffer(ds[i].name, ds[j].name);
    }
  }

  /** The seed's ids are pairwise distinct. */
  lemma SampleIdsUnique(loadedAt: string)
    ensures IdsUnique(SampleDeals(loadedAt))
  {
    var ds := SampleDeals(loadedAt);
    forall i, j | 0 <= i < j < |ds| ensures ds[i].id != ds[j].id {
      assert ds[i].id[5] != ds[j].id[5];
    }
  }

  /** Every seed deal sits in one of the four active stages. */
  lemma SampleStagesActive(loadedAt: string)
    ensures AllValid(SampleDeals(loadedAt))
    ensures forall i :: 0 <= i < |SampleDeals(loadedAt)| ==> !IsClosedKey(SampleDeals(loadedAt)[i].stage)
  {
    var ds := SampleDeals(loadedAt);
    forall i | 0 <= i < |ds| ensures IsStageKey(ds[i].stage) && !IsClosedKey(ds[i].stage) {
      var s := [Qualified, Proposal, Lead, Negotiation][i];
      assert ds[i].stage == Key(s);
      ParseRoundTrip(Key(s), s);
    }
  }
}

=== FILE: widgets.dfy ===
/** The display decisions of the chat widgets: the close-deal confirmation
    state machine and the create/move previews. */
module Widgets {
  import opened Optional
  import opened Types

  /** The execution status the chat runtime passes to a tool's view. */
  datatype Status = InProgress | Executing | Complete

  // ---------------------------------------------------------------------
  // CloseDealConfirm: the human-in-the-loop widget of close_deal.

  /** The widget's own response state; `Unanswered` is the source's "none". */
  datatype Response = Unanswered | Confirmed | Cancelled

  datatype Button = CancelButton | ConfirmButton

  /** The callbacks the widget is handed by the close_deal action. */
  datatype Callback = OnConfirm | OnCancel

  datatype CloseWidget = CloseWidget(
    dealName: string,
    outcome: string,
    isExecuting: bool,
    response: Response)

  /** A freshly mounted widget has not been answered. */
  function NewCloseWidget(dealName: string, outcome: string, isExecuting: bool): (w: CloseWidget)
    ensures w.response == Unanswered
    ensures w.dealName == dealName && w.outcome == outcome && w.isExecuting == isExecuting
  {
    CloseWidget(dealName, outcome, isExecuting, Unanswered)
  }

  predicate IsWon(w: CloseWidget) {
    w.outcome == Key(ClosedWon)
  }

  /** The two buttons are rendered only while the widget is unanswered. */
  predicate ShowsButtons(w: CloseWidget) {
    w.response == Unanswered
  }

  function ResponseOf(b: Button): Response {
    match b
    case CancelButton => Cancelled
    case ConfirmButton => Confirmed
  }

  function CallbackOf(b: Button): Callback {
    match b
    case CancelButton => OnCancel
    case ConfirmButton => OnConfirm
  }

  /** Pressing a button records the answer and fires that button's callback;
      once answered there is no button left to press, so nothing happens. */
  function Press(w: CloseWidget, b: Button): (r: (CloseWidget, Option<Callback>))
    ensures !ShowsButtons(w) ==> r == (w, None)
    ensures ShowsButtons(w) ==> r.1 == Some(CallbackOf(b)) && r.0.response == ResponseOf(b)
    ensures r.0.dealName == w.dealName && r.0.outcome == w.outcome && r.0.isExecuting == w.isExecuting
  {
    if ShowsButtons(w) then (w.(response := ResponseOf(b)), Some(CallbackOf(b))) else (w, None)
  }

  /** A sequence of presses: the final widget and the callbacks fired. */
  function PressAll(w: CloseWidget, bs: seq<Button>): (CloseWidget, seq<Callback>)
    decreases |bs|
  {
    if |bs| == 0 then (w, [])
    else
      var (w', fired) := Press(w, bs[0]);
      var (w'', more) := PressAll(w', bs[1..]);
      (w'', (if fired.Some? then [fired.value] else []) + more)
  }

  /** An answered widget is terminal: no press changes it or fires anything. */
  lemma {:induction false} AnsweredIsTerminal(w: CloseWidget, bs: seq<Button>)
    requires w.response != Unanswered
    ensures PressAll(w, bs) == (w, [])
  {
    if |bs| != 0 {
      assert Press(w, bs[0]) == (w, None);
      AnsweredIsTerminal(w, bs[1..]);
      assert [] + PressAll(w, bs[1..]).1 == [];
    }
  }

  /** Exactly one callback fires per widget, the first press decides which,
      and the widget ends in the matching state. */
  lemma OneCallbackPerWidget(w: CloseWidget, bs: seq<Button>)
    requires w.response == Unanswered
    ensures |bs| == 0 ==> PressAll(w, bs) == (w, [])
    ensures |bs| > 0 ==> PressAll(w, bs).1 == [CallbackOf(bs[0])]
    ensures |bs| > 0 ==> PressAll(w, bs).0 == w.(response := ResponseOf(bs[0]))
  {
    if |bs| > 0 {
      AnsweredIsTerminal(w.(response := ResponseOf(bs[0])), bs[1..]);
    }
  }

  /** Whether the buttons are offered depends on the response alone, never
      on whether the runtime reports the tool as executing. */
  lemma ButtonsIgnoreExecuting(w: CloseWidget, executing: bool)
    ensures ShowsButtons(w.(isExecuting := executing)) == ShowsButtons(w)
    ensures Press(w.(isExecuting := executing), ConfirmButton).1 == Press(w, ConfirmButton).1
    ensures Press(w.(isExecuting := executing), CancelButton).1 == Press(w, CancelButton).1
  {
  }

  /** The widget's heading. */
  function Title(w: CloseWidget): string {
    match w.response
    case Unanswered => if IsWon(w) then "Confirm: Close Deal as Won?" else "Confirm: Close Deal as Lost?"
    case Confirmed => if IsWon(w) then "Deal Closed as Won" else "Deal Closed as Lost"
    case Cancelled => "Action Cancelled"
  }

  /** The heading tells the response state apart, and, unless cancelled,
      whether the outcome is a win. */
  lemma TitleDecodes(v: CloseWidget, w: CloseWidget)
    requires Title(v) == Title(w)
    ensures v.response == w.response
    ensures v.response != Cancelled ==> IsWon(v) == IsWon(w)
  {
  }

  // ---------------------------------------------------------------------
  // DealPreview: the live view of a create_deal call.

  /** The create_deal arguments as far as they have streamed in. */
  datatype DealArgs = DealArgs(
    name: Option<string>,
    value: Option<nat>,
    company: Option<string>,
    contactName: Option<string>,
    stage: Option<string>)

  /** What the create preview renders. `PreviewThrows` is the render
      failing: the card reads `stage.color` of an `undefined` entry. */
  datatype DealPreviewView =
    | CreatingLoader
    | DealCard(created: bool, entry: ConfigEntry, saving: bool)
    | PreviewThrows

  /** Some argument worth showing has arrived: a non-empty name or company,
      or a non-zero value (0 is falsy). */
  predicate HasData(a: DealArgs) {
    Truthy(a.name) || Truthy(a.company) || (a.value.Some? && a.value.value != 0)
  }

  /** The configuration entry the card is drawn with: `lead`'s when no stage
      is given, otherwise whatever the record holds under the given string. */
  function PreviewEntry(stage: Option<string>): (r: ConfigEntry)
    ensures !Truthy(stage) ==> r == Own(Lead)
    ensures Truthy(stage) ==> (r.Own? <==> IsStageKey(stage.value))
    ensures Truthy(stage) && r.Own? ==> Key(r.stage) == stage.value
    ensures r.Undefined? <==> Truthy(stage) && !IsStageKey(stage.value) && stage.value !in InheritedNames
  {
    if Truthy(stage) then ConfigLookup(stage.value) else Own(Lead)
  }

  /** The create preview as written: the loader until some data arrives,
      then the card, whose stage line fails on a stage string the
      configuration record does not hold. */
  function DealPreview(a: DealArgs, status: Status): (v: DealPreviewView)
    ensures v.CreatingLoader? <==> !HasData(a)
    ensures v.PreviewThrows? <==>
      HasData(a) && Truthy(a.stage) && !IsStageKey(a.stage.value) && a.stage.value !in InheritedNames
    ensures v.DealCard? ==> (v.created <==> status == Complete)
    ensures v.DealCard? ==> (v.saving <==> status == Executing)
    ensures v.DealCard? ==> v.entry == PreviewEntry(a.stage) && !v.entry.Undefined?
  {
    if !HasData(a) then CreatingLoader
    else
      var e := PreviewEntry(a.stage);
      if e.Undefined? then PreviewThrows else DealCard(status == Complete, e, status == Executing)
  }

  /** The create preview drawn with the stage `create_deal` will file the
      deal under, so that no stage string makes it fail. */
  function DealPreviewChecked(a: DealArgs, status: Status): (v: DealPreviewView)
    ensures v.CreatingLoader? <==> !HasData(a)
    ensures !v.PreviewThrows?
    ensures v.DealCard? ==> (v.created <==> status == Complete)
    ensures v.DealCard? ==> (v.saving <==> status == Executing)
    ensures v.DealCard? ==> v.entry.Own?
    ensures v.DealCard? && Truthy(a.stage) && IsStageKey(a.stage.value) ==> Key(v.entry.stage) == a.stage.value
    ensures v.DealCard? && !(Truthy(a.stage) && IsStageKey(a.stage.value)) ==> v.entry.stage == Lead
  {
    if !HasData(a) then CreatingLoader
    else DealCard(status == Complete, Own(DefaultStage(a.stage)), status == Executing)
  }

  /** Wherever the preview as written shows a stage's own entry, the checked
      preview shows the same. */
  lemma CheckedPreviewAgrees(a: DealArgs, status: Status)
    ensures DealPreview(a, status).DealCard? && DealPreview(a, status).entry.Own? ==>
      DealPreviewChecked(a, status) == DealPreview(a, status)
    ensures DealPreview(a, status).CreatingLoader? ==> DealPreviewChecked(a, status) == CreatingLoader
  {
    var v, w := DealPreview(a, status), DealPreviewChecked(a, status);
    if v.DealCard? && v.entry.Own? {
      if Truthy(a.stage) {
        KeyInjective(v.entry.stage, w.entry.stage);
      } else {
        ShortStringsAreNotKeys("");
      }
    }
  }

  /** A stage still streaming in makes the preview as written fail: with the
      name already present and the stage streamed in as far as "prop", the
      start of "proposal", there is no entry to draw, while the checked
      preview draws `lead`. */
  lemma DealPreviewThrowsOnPartialStage()
    ensures DealPreview(DealArgs(Some("Security Audit"), None, None, None, Some("prop")), InProgress) == PreviewThrows
    ensures DealPreviewChecked(DealArgs(Some("Security Audit"), None, None, None, Some("prop")), InProgress)
            == DealCard(false, Own(Lead), false)
  {
    forall s: Stage ensures Key(s) != "prop" {
      assert |Key(s)| != 4 || Key(s)[1] != 'r';
    }
  }

  // ---------------------------------------------------------------------
  // MovePreview: the live view of a move_deal call.

  datatype MovePreviewView =
    | MovingLoader
    | MoveCard(moved: bool, stage: Option<Stage>)

  /** The move preview: the loader while the deal name is empty, then the
      card. The card reads the configuration entry only through `?.`, so an
      inherited property name renders as blank as an absent entry: the card
      shows a stage exactly for a stage key. */
  function MovePreview(dealName: string, newStage: string, status: Status): (v: MovePreviewView)
    ensures v.MovingLoader? <==> dealName == ""
    ensures v.MoveCard? ==> (v.moved <==> status == Complete)
    ensures v.MoveCard? ==> (v.stage.Some? <==> IsStageKey(newStage))
    ensures v.MoveCard? && v.stage.Some? ==> Key(v.stage.value) == newStage
  {
    if dealName == "" then MovingLoader else MoveCard(status == Complete, Parse(newStage))
  }
}
